=== FILE: README.md ===
# Recurrent-state segmentation of the navigation policy base, in Dafny

This project models the recurrent part of the actor-critic navigation policy in
`rl/pytorch-a2c-ppo-acktr/curiosity_model.py`. Its core is `NNBase._forward_gru`.
That function takes a flat batch of T·N feature rows, one hidden state per
environment instance (N of them) and one continue-mask per row. With exactly N
rows it takes one masked step. Otherwise it reshapes the batch to a T×N grid and
cuts the time axis at every step where some instance's mask is 0. It resets each
run's state once, with the mask of the run's first step, and runs the GRU over the
whole run. It then concatenates the run outputs in time order.

Alongside it, the project models the small `NavBase` rules. These are the sorted
order of the auxiliary observation fields (every key but `view`), the width of
their concatenation, when the auxiliary encoder exists, and the recurrent-size
properties of `NNBase`.

How the model abstracts the code:

- The GRU is a `Gru.Cell`: an arbitrary per-instance step `(x, h) -> (y, h')`,
  plus the zero state that `h * 0.0` leaves behind. One call of the layer on
  consecutive steps (`Gru.Run`) is the step folded over time with no masking.
- Masks are booleans: `true` stands for 1.0 (the episode continued) and `false`
  for 0.0 (the instance was reset).
- The reference semantics `Gru.Sequential` applies single-step mode at
  t = 0, …, T-1. The central result, `Segmentation.MultiStepMatchesSequential`,
  proves that segmented execution produces the same outputs and final hidden
  state. `RecurrentBase.ForwardGruMatchesStepByStep` lifts this to the flat
  T·N layout the caller sees.
- `_forward_gru` fails in some cases. These are modelled as `RecurrentBase.GruError`:
  - `DivisionByZero`: rows to process but no hidden states (`rows / 0`).
  - `ShapeMismatch`: the row count is not a multiple of N, so `view` fails; or there is not one mask per row, so `masks.view(T, N)` fails in multi-step mode and the broadcast of `hxs * masks` fails in single-step mode.
  - `EmptySequence`: zero rows against N > 0 states. The reshape succeeds, but the run loop then indexes `masks[0]` of an empty grid.
- Python's string order is `KeyOrder.Below`: lexicographic by code point, with a
  proper prefix first. `sorted(...)` is `KeyOrder.SortedKeys`.

A 0 mask at step t means the instance was reset before step t. So with masks
[[1,1],[1,0],[1,1]] the cut falls at step 1 and the runs are [0,1) and [1,3)
(`Segmentation.ResetAtStepOneExample`).

## Model

| member | source | states |
|---|---|---|
| Seqs.Unflatten | rl/pytorch-a2c-ppo-acktr/curiosity_model.py:140-148 | reshaping T·N rows to a T×N grid gives T rows of N entries, and flattening the grid gives back the input |
| Seqs.UnflattenFlatten | rl/pytorch-a2c-ppo-acktr/curiosity_model.py:186-189 | flattening a T×N grid of run outputs gives T·N rows, and reshaping them recovers the grid |
| Gru.SingleStep | rl/pytorch-a2c-ppo-acktr/curiosity_model.py:135-138 | single-step mode is one GRU call of length one on the masked state `h * mask`, giving N outputs and N states; when every mask is 1 it is a plain step from `h` |
| Gru.Run | rl/pytorch-a2c-ppo-acktr/curiosity_model.py:178-181 | one call of the layer on a run gives one N-wide output row per step of the run and an N-wide final state |
| Segmentation.Runs | rl/pytorch-a2c-ppo-acktr/curiosity_model.py:172-176 | one run (has_zeros[i], has_zeros[i+1]) per consecutive pair of split points; the runs are contiguous and go from the first split point to the last |
| Segmentation.MultiStep | rl/pytorch-a2c-ppo-acktr/curiosity_model.py:139-190 | multi-step mode on a T×N grid gives T output rows of N entries and N final states |
| NavBase.ConcatAux | rl/pytorch-a2c-ppo-acktr/curiosity_model.py:263-267 | the auxiliary input of one observation is as wide as the summed widths of its non-view fields |
| Gru.SequentialAppend | rl/pytorch-a2c-ppo-acktr/curiosity_model.py:135-138 | stepping through a batch one step at a time composes: a prefix, then the rest from the state the prefix left |
| Gru.RunFromReset | rl/pytorch-a2c-ppo-acktr/curiosity_model.py:173-181 | masking once at a run's first step and then running the GRU over the run equals masking before every step, when no later step of the run resets |
| Gru.FullResetForgetsHistory | rl/pytorch-a2c-ppo-acktr/curiosity_model.py:135-136 | after a step t where every mask is 0, the outputs from t on and the final state are those of running steps t..T-1 alone from any state: neither the initial hidden state nor the inputs before t matter |
| Segmentation.ResetSteps | rl/pytorch-a2c-ppo-acktr/curiosity_model.py:152-164 | the listed steps are strictly increasing, lie in [t, T), each has some zero mask, and every such step is listed |
| Segmentation.SplitPoints | rl/pytorch-a2c-ppo-acktr/curiosity_model.py:150-167 | the split list starts with 0, ends with T and is strictly increasing; a step 1 ≤ u < T is a split point exactly when some instance's mask at u is 0, and step 0 is a boundary whatever its masks |
| Segmentation.RunsContiguous | rl/pytorch-a2c-ppo-acktr/curiosity_model.py:172-176 | the runs [has_zeros[i], has_zeros[i+1]) are non-empty, contiguous and in order, from 0 to T |
| Segmentation.RunsCoverOnce | rl/pytorch-a2c-ppo-acktr/curiosity_model.py:172-185 | every step in [0, T) lies in exactly one run, and the runs hold T steps in all, so `torch.cat(outputs, dim=0)` has T rows |
| Segmentation.RunCountIsStepCount | rl/pytorch-a2c-ppo-acktr/curiosity_model.py:172-185 | there are never more runs than steps, and exactly as many precisely when every step after the first resets some instance; so the commented `assert len(outputs) == T`, which counts runs, fails on every batch where some step 1 <= t < T resets nobody |
| Segmentation.RunsAreQuietInside | rl/pytorch-a2c-ppo-acktr/curiosity_model.py:173-181 | every step after a run's first step has all masks 1, so resetting only at `masks[start_idx]` is enough |
| Segmentation.NoResetsSingleRun | rl/pytorch-a2c-ppo-acktr/curiosity_model.py:152-172 | if no mask at steps 1..T-1 is 0, the split points are [0, T] and there is the single run [0, T) |
| Segmentation.EveryStepResetsUnitRuns | rl/pytorch-a2c-ppo-acktr/curiosity_model.py:152-172 | if every step 1..T-1 has some zero mask, the split points are 0..T and there are T runs (t, t+1) |
| Segmentation.Segments | rl/pytorch-a2c-ppo-acktr/curiosity_model.py:170-187 | the loop over runs yields one output row per step between the first and last split point, N wide, and an N-wide final state |
| Segmentation.SegmentsMatchSequential | rl/pytorch-a2c-ppo-acktr/curiosity_model.py:170-187 | for any strictly increasing split list whose runs reset only at their starts, the run loop equals step-by-step single-step mode over the covered steps |
| Segmentation.MultiStepMatchesSequential | rl/pytorch-a2c-ppo-acktr/curiosity_model.py:134-192 | multi-step mode gives the same outputs and final hidden state as single-step mode applied at t = 0..T-1 |
| Segmentation.ResetAtStepOneExample | rl/pytorch-a2c-ppo-acktr/curiosity_model.py:152-176 | with masks [[1,1],[1,0],[1,1]] the split points are [0,1,3] and the runs are [0,1) and [1,3) |
| RecurrentBase.RecurrentHiddenStateSize | rl/pytorch-a2c-ppo-acktr/curiosity_model.py:124-132 | when recurrent the stored state is `hidden_size` wide, the width `output_size` reports; otherwise it is one wide |
| RecurrentBase.ForwardGru | rl/pytorch-a2c-ppo-acktr/curiosity_model.py:134-192 | it succeeds exactly on N rows or a positive multiple of N rows with one mask per row; N rows means one step from `h * mask`; the other shapes give division by zero, shape mismatch or the empty-sequence failure; on success there are as many output rows as input rows and N states |
| RecurrentBase.ForwardGruMatchesStepByStep | rl/pytorch-a2c-ppo-acktr/curiosity_model.py:134-192 | whenever the call succeeds, in either mode, its result is single-step mode applied to each of the T steps of the flat batch in turn |
| KeyOrder.SortedKeys | rl/pytorch-a2c-ppo-acktr/curiosity_model.py:237 | `sorted(keys)` lists every key once, in strictly increasing Python string order |
| KeyOrder.SortedUnique | rl/pytorch-a2c-ppo-acktr/curiosity_model.py:263 | two strictly sorted lists with the same keys are equal, so the concatenation order depends only on the key set |
| NavBase.AuxKeys | rl/pytorch-a2c-ppo-acktr/curiosity_model.py:237 | the auxiliary keys are sorted and are exactly the observation keys other than `view` |
| NavBase.AuxWidth | rl/pytorch-a2c-ppo-acktr/curiosity_model.py:233-236 | the summed field widths less the view's exist exactly when `view` is present, and equal the summed widths of the auxiliary fields |
| NavBase.HasAuxEncoder | rl/pytorch-a2c-ppo-acktr/curiosity_model.py:240-250 | the auxiliary encoder is built exactly when some non-view field has positive width |
| NavBase.ConcatAuxLayout | rl/pytorch-a2c-ppo-acktr/curiosity_model.py:263-267 | in the auxiliary input, the i-th field in sorted key order appears intact, right after the fields of the keys sorted before it |
| NavBase.ConcatAuxMatchesAuxWidth | rl/pytorch-a2c-ppo-acktr/curiosity_model.py:233-268 | an observation whose fields have the declared widths yields an auxiliary input exactly as wide as the encoder's input layer |
| NavBase.Forward | rl/pytorch-a2c-ppo-acktr/curiosity_model.py:271-273 | without the recurrent flag, features and hidden state pass through unchanged; with it, a successful call returns exactly single-step mode applied to each of the T steps of the batch in turn |

## Left out

- The GRU, CNN backbones (`Conditional_Net_RN5N`, the small conv stack), the auxiliary encoder's linear and ReLU layers, the value head and the join of image and auxiliary features are left out. They are floating-point tensor maths inside the tensor library. The GRU is an arbitrary cell, and the rest is not modelled.
- Orthogonal and constant weight initialisation, and batch-norm freezing, are left out. They have no effect on control flow.
- Masks other than 0.0 and 1.0 are not modelled. The split test compares with 0.0, but the reset multiplies by the mask. With fractional masks, single-step and multi-step mode would differ, so the equivalence is stated for 0/1 masks only.
- RecurrentBase.ForwardGru: broadcasting is not modelled. In single-step mode a mask tensor of a single row would broadcast against all N states, but the model treats any mask count other than the row count as a shape mismatch.
- RecurrentBase.ForwardGru: `T = int(rows / N)` goes through floating-point division. The model uses exact integer division, which agrees for every row count below 2^53.
- The scalar-versus-list case at curiosity_model.py:160-164 is not modelled separately. It is a tensor-shape artefact, and both branches give the same list of steps.
- The single-step call with zero rows and zero states is modelled as returning empty results. What the tensor library does with an empty batch is not modelled.
- The `policy_type == 'Nav'` and `init_policy` assertions, and an `arch` other than the two known ones, are left out. These are construction options unrelated to the segmentation or key logic.
- `Policy.act`, `evaluate_actions`, `get_value`, the categorical and Gaussian distributions, and the `NavRand` random-action override are left out. They are sampling and log-probabilities over floats in a module that is not part of this model, and the override depends on a random generator.
- NavBase.Forward: feature widths are not modelled, so a successful recurrent call is promised whatever the feature width. In the source a recurrent base with an auxiliary encoder likely cannot run: the GRU is built for `feat_dim` input columns (`recurrent_input_size = feat_dim`), but `forward` hands `_forward_gru` the image features joined with the `hidden_size//2` auxiliary columns, so the GRU's input-size check raises. This looks like a defect in the source.
- `output_size` is the configured hidden size (`Config.hiddenSize`) and has no member of its own. The width `forward` actually hands the heads is not modelled: `feat_dim` from the image network, plus `hidden_size//2` when the auxiliary encoder is built.
- Device transfers and `print` calls are left out.
- `src/file_utils.py` is left out. It only wraps file-system calls.

=== FILE: gru.dfy ===
/** The recurrent layer as the segmentation logic sees it.

    The GRU itself is not modelled: a `Cell` is any per-instance update of a
    hidden state from one input, and `Run` is one call of the layer on
    consecutive time steps, the cell folded over time without masking. A mask
    entry is `true` for 1.0 (the episode continued into this step) and `false`
    for 0.0 (the instance was just reset). */
module Gru {
  import opened Seqs

  /** `step` updates one instance; `zero` is the hidden state that multiplying
      by a 0.0 mask leaves behind. */
  datatype Cell<!X, !H, Y> = Cell(step: (X, H) -> (Y, H), zero: H)

  /** No instance was reset at this step. */
  predicate AllContinue(m: seq<bool>) {
    forall i :: 0 <= i < |m| ==> m[i]
  }

  /** Every instance was reset at this step. */
  predicate AllReset(m: seq<bool>) {
    forall i :: 0 <= i < |m| ==> !m[i]
  }

  /** Some instance was reset at this step (its mask is 0.0). */
  predicate AnyReset(m: seq<bool>) {
    exists i :: 0 <= i < |m| && !m[i]
  }

  /** `h * mask`: each instance keeps its state when its mask is 1.0 and drops
      to the zero state when it is 0.0. */
  function Reset<H>(h: seq<H>, m: seq<bool>, zero: H): (r: seq<H>)
    requires |m| == |h|
    ensures |r| == |h|
  {
    seq(|h|, i requires 0 <= i < |h| => if m[i] then h[i] else zero)
  }

  /** One time step of the layer over all N instances side by side. */
  function StepRow<X, H, Y>(c: Cell<X, H, Y>, xs: seq<X>, h: seq<H>): (r: (seq<Y>, seq<H>))
    requires |xs| == |h|
    ensures |r.0| == |h| && |r.1| == |h|
  {
    (seq(|h|, i requires 0 <= i < |h| => c.step(xs[i], h[i]).0),
     seq(|h|, i requires 0 <= i < |h| => c.step(xs[i], h[i]).1))
  }

  /** One call of the layer on the rows of a run: outputs per step, final state. */
  function Run<X, H, Y>(c: Cell<X, H, Y>, rows: seq<seq<X>>, h: seq<H>): (r: (seq<seq<Y>>, seq<H>))
    requires Rectangular(rows, |h|)
    ensures |r.0| == |rows| && |r.1| == |h|
    ensures Rectangular(r.0, |h|)
    decreases |rows|
  {
    if |rows| == 0 then ([], h)
    else
      var (y, h1) := StepRow(c, rows[0], h);
      var (ys, h2) := Run(c, rows[1..], h1);
      ([y] + ys, h2)
  }

  /** Single-step mode: mask the carried state, then take one step. */
  function SingleStep<X, H, Y>(c: Cell<X, H, Y>, xs: seq<X>, h: seq<H>, m: seq<bool>): (r: (seq<Y>, seq<H>))
    requires |xs| == |h| && |m| == |h|
    ensures |r.0| == |h| && |r.1| == |h|
    ensures r == (Run(c, [xs], Reset(h, m, c.zero)).0[0], Run(c, [xs], Reset(h, m, c.zero)).1)
    ensures AllContinue(m) ==> r == StepRow(c, xs, h)
  {
    assert [xs][1..] == [];
    ResetContinueIsIdentity(h, m, c.zero);
    StepRow(c, xs, Reset(h, m, c.zero))
  }

  predicate WellShaped<X>(rows: seq<seq<X>>, masks: seq<seq<bool>>, n: nat) {
    |rows| == |masks| && Rectangular(rows, n) && Rectangular(masks, n)
  }

  /** The reference semantics: single-step mode applied at t = 0, 1, ..., T-1,
      each step masking the state the previous one produced. */
  function Sequential<X, H, Y>(c: Cell<X, H, Y>, rows: seq<seq<X>>, masks: seq<seq<bool>>, h: seq<H>): (r: (seq<seq<Y>>, seq<H>))
    requires WellShaped(rows, masks, |h|)
    ensures |r.0| == |rows| && |r.1| == |h|
    ensures Rectangular(r.0, |h|)
    decreases |rows|
  {
    if |rows| == 0 then ([], h)
    else
      var (y, h1) := SingleStep(c, rows[0], h, masks[0]);
      var (ys, h2) := Sequential(c, rows[1..], masks[1..], h1);
      ([y] + ys, h2)
  }

  /** A mask of all 1.0 leaves the state alone. */
  lemma ResetContinueIsIdentity<H>(h: seq<H>, m: seq<bool>, zero: H)
    requires |m| == |h|
    ensures AllContinue(m) ==> Reset(h, m, zero) == h
  {
  }

  /** After a mask of all 0.0 nothing of the previous state survives. */
  lemma ResetAllForgets<H>(h: seq<H>, h': seq<H>, m: seq<bool>, zero: H)
    requires |m| == |h| == |h'| && AllReset(m)
    ensures Reset(h, m, zero) == Reset(h', m, zero)
  {
  }

  /** Running the reference on a prefix and then on the rest from the state the
      prefix left is the same as running it on the whole. */
  lemma {:induction false} SequentialAppend<X, H, Y>(c: Cell<X, H, Y>, a: seq<seq<X>>, ma: seq<seq<bool>>,
                                                     b: seq<seq<X>>, mb: seq<seq<bool>>, h: seq<H>)
    requires WellShaped(a, ma, |h|) && WellShaped(b, mb, |h|)
    ensures WellShaped(a + b, ma + mb, |h|)
    ensures Sequential(c, a + b, ma + mb, h)
         == (Sequential(c, a, ma, h).0 + Sequential(c, b, mb, Sequential(c, a, ma, h).1).0,
             Sequential(c, b, mb, Sequential(c, a, ma, h).1).1)
    decreases |a|
  {
    if |a| == 0 {
      assert a + b == b && ma + mb == mb;
      assert Sequential(c, a, ma, h) == ([], h);
      assert [] + Sequential(c, b, mb, h).0 == Sequential(c, b, mb, h).0;
    } else {
      var (y, h1) := SingleStep(c, a[0], h, ma[0]);
      SequentialAppend(c, a[1..], ma[1..], b, mb, h1);
      assert (a + b)[0] == a[0] && (ma + mb)[0] == ma[0];
      assert (a + b)[1..] == a[1..] + b;
      assert (ma + mb)[1..] == ma[1..] + mb;
      var rest := Sequential(c, a[1..], ma[1..], h1);
      var tail := Sequential(c, b, mb, rest.1);
      assert Sequential(c, a, ma, h) == ([y] + rest.0, rest.1);
      assert Sequential(c, a + b, ma + mb, h) == ([y] + (rest.0 + tail.0), tail.1);
      assert [y] + (rest.0 + tail.0) == ([y] + rest.0) + tail.0;
    }
  }

  /** While no instance resets, one call of the layer is the reference semantics. */
  lemma {:induction false} RunMatchesSequential<X, H, Y>(c: Cell<X, H, Y>, rows: seq<seq<X>>, masks: seq<seq<bool>>, h: seq<H>)
    requires WellShaped(rows, masks, |h|)
    requires forall t :: 0 <= t < |masks| ==> AllContinue(masks[t])
    ensures Run(c, rows, h) == Sequential(c, rows, masks, h)
    decreases |rows|
  {
    if |rows| > 0 {
      ResetContinueIsIdentity(h, masks[0], c.zero);
      RunMatchesSequential(c, rows[1..], masks[1..], StepRow(c, rows[0], h).1);
    }
  }

  /** Masking once at the first step and then running the layer over a run in
      which no later step resets equals masking before every step. */
  lemma {:induction false} RunFromReset<X, H, Y>(c: Cell<X, H, Y>, rows: seq<seq<X>>, masks: seq<seq<bool>>, h: seq<H>)
    requires WellShaped(rows, masks, |h|) && |rows| >= 1
    requires forall t :: 1 <= t < |masks| ==> AllContinue(masks[t])
    ensures Run(c, rows, Reset(h, masks[0], c.zero)) == Sequential(c, rows, masks, h)
  {
    var h0 := Reset(h, masks[0], c.zero);
    RunMatchesSequential(c, rows[1..], masks[1..], StepRow(c, rows[0], h0).1);
  }

  /** A batch whose first step resets every instance gives the same result
      whatever state is carried into it. */
  lemma ResetFirstForgets<X, H, Y>(c: Cell<X, H, Y>, rows: seq<seq<X>>, masks: seq<seq<bool>>, h: seq<H>, h': seq<H>)
    requires WellShaped(rows, masks, |h|) && |h'| == |h|
    requires |rows| > 0 && AllReset(masks[0])
    ensures Sequential(c, rows, masks, h) == Sequential(c, rows, masks, h')
  {
    ResetAllForgets(h, h', masks[0], c.zero);
  }

  /** A step t at which every instance resets cuts all dependence on what came
      before it: from t on, the outputs and the final state are those of running
      the steps t .. T-1 alone, from any state, so neither the state carried into
      the batch nor the inputs before t matter. */
  lemma FullResetForgetsHistory<X, H, Y>(c: Cell<X, H, Y>, rows: seq<seq<X>>, masks: seq<seq<bool>>,
                                         h: seq<H>, h': seq<H>, t: nat)
    requires WellShaped(rows, masks, |h|) && |h'| == |h|
    requires t < |rows| && AllReset(masks[t])
    ensures Sequential(c, rows, masks, h).1 == Sequential(c, rows[t..], masks[t..], h').1
    ensures Sequential(c, rows, masks, h).0[t..] == Sequential(c, rows[t..], masks[t..], h').0
    ensures Sequential(c, rows, masks, h).1 == Sequential(c, rows, masks, h').1
    ensures Sequential(c, rows, masks, h).0[t..] == Sequential(c, rows, masks, h').0[t..]
  {
    var a, ma, b, mb := rows[..t], masks[..t], rows[t..], masks[t..];
    TakeDrop(rows, t);
    TakeDrop(masks, t);
    assert AllReset(mb[0]);
    var tail := Sequential(c, b, mb, h');
    assert Sequential(c, rows, masks, h).1 == tail.1 && Sequential(c, rows, masks, h).0[t..] == tail.0 by {
      SequentialAppend(c, a, ma, b, mb, h);
      var pre := Sequential(c, a, ma, h);
      ResetFirstForgets(c, b, mb, pre.1, h');
      DropPrefix(pre.0, Sequential(c, b, mb, pre.1).0);
    }
    assert Sequential(c, rows, masks, h').1 == tail.1 && Sequential(c, rows, masks, h').0[t..] == tail.0 by {
      SequentialAppend(c, a, ma, b, mb, h');
      var pre := Sequential(c, a, ma, h');
      ResetFirstForgets(c, b, mb, pre.1, h');
      DropPrefix(pre.0, Sequential(c, b, mb, pre.1).0);
    }
  }
}

=== FILE: key_order.dfy ===
/** Python's ordering of `str` values and the sorted list of a set of keys
    (`sorted(keys)`), which fixes the order auxiliary observation fields are
    concatenated in. */
module KeyOrder {

  /** `a < b` on Python strings: lexicographic by code point, a proper prefix
      sorting before the longer string. */
  predicate Below(a: string, b: string)
    decreases |a|
  {
    if |a| == 0 then |b| > 0
    else if |b| == 0 then false
    else if a[0] != b[0] then a[0] < b[0]
    else Below(a[1..], b[1..])
  }

  lemma {:induction false} BelowIrreflexive(a: string)
    ensures !Below(a, a)
    decreases |a|
  {
    if |a| > 0 {
      BelowIrreflexive(a[1..]);
    }
  }

  lemma {:induction false} BelowTransitive(a: string, b: string, c: string)
    requires Below(a, b) && Below(b, c)
    ensures Below(a, c)
    decreases |a|
  {
    if |a| > 0 && a[0] == b[0] && b[0] == c[0] {
      BelowTransitive(a[1..], b[1..], c[1..]);
    }
  }

  lemma {:induction false} BelowTotal(a: string, b: string)
    requires a != b
    ensures Below(a, b) || Below(b, a)
    decreases |a|
  {
    if |a| > 0 && |b| > 0 && a[0] == b[0] {
      assert a == [a[0]] + a[1..] && b == [b[0]] + b[1..];
      BelowTotal(a[1..], b[1..]);
    }
  }

  lemma BelowAsymmetric(a: string, b: string)
    ensures Below(a, b) ==> !Below(b, a)
  {
    BelowIrreflexive(a);
    if Below(a, b) && Below(b, a) {
      BelowTransitive(a, b, a);
    }
  }

  /** Strictly increasing, hence free of duplicates. */
  predicate Sorted(s: seq<string>) {
    forall i, j :: 0 <= i < j < |s| ==> Below(s[i], s[j])
  }

  predicate IsMinimum(m: string, s: set<string>) {
    m in s && forall y :: y in s ==> !Below(y, m)
  }

  lemma MinimumExists(s: set<string>)
    requires s != {}
    ensures exists m :: IsMinimum(m, s)
    decreases |s|
  {
    var x :| x in s;
    BelowIrreflexive(x);
    if s != {x} {
      MinimumExists(s - {x});
      var m :| IsMinimum(m, s - {x});
      if Below(x, m) {
        forall y | y in s
          ensures !Below(y, x)
        {
          if y != x && Below(y, x) {
            BelowTransitive(y, x, m);
          }
        }
        assert IsMinimum(x, s);
      } else {
        assert IsMinimum(m, s);
      }
    } else {
      assert IsMinimum(x, s);
    }
  }

  lemma MinimumBelowRest(m: string, s: set<string>)
    requires IsMinimum(m, s)
    ensures forall y :: y in s && y != m ==> Below(m, y)
  {
    forall y | y in s && y != m
      ensures Below(m, y)
    {
      BelowTotal(m, y);
    }
  }

  lemma PrependSorted(m: string, rest: seq<string>)
    requires Sorted(rest)
    requires forall k :: k in rest ==> Below(m, k)
    ensures Sorted([m] + rest)
  {
    forall i, j | 0 <= i < j < |[m] + rest|
      ensures Below(([m] + rest)[i], ([m] + rest)[j])
    {
      assert ([m] + rest)[j] == rest[j - 1];
      assert i > 0 ==> ([m] + rest)[i] == rest[i - 1];
    }
  }

  /** `sorted(s)`: the elements of s, each once, in increasing order. */
  ghost function SortedKeys(s: set<string>): (r: seq<string>)
    ensures Sorted(r)
    ensures |r| == |s|
    ensures forall k :: k in r <==> k in s
    decreases |s|
  {
    if s == {} then []
    else
      MinimumExists(s);
      var m :| IsMinimum(m, s);
      MinimumBelowRest(m, s);
      var rest := SortedKeys(s - {m});
      PrependSorted(m, rest);
      [m] + rest
  }

  /** The head of a sorted sequence is below every other entry. */
  lemma SortedHeadLeast(s: seq<string>)
    requires Sorted(s) && |s| > 0
    ensures forall i :: 0 < i < |s| ==> Below(s[0], s[i]) && s[i] != s[0]
  {
    BelowIrreflexive(s[0]);
  }

  /** A set has exactly one sorted enumeration: the order does not depend on
      the order the keys were inserted in. */
  lemma {:induction false} SortedUnique(a: seq<string>, b: seq<string>)
    requires Sorted(a) && Sorted(b)
    requires forall k :: k in a <==> k in b
    ensures a == b
    decreases |a|
  {
    assert |a| > 0 ==> |b| > 0 by {
      if |a| > 0 {
        assert a[0] in a;
      }
    }
    assert |b| > 0 ==> |a| > 0 by {
      if |b| > 0 {
        assert b[0] in b;
      }
    }
    if |a| > 0 {
      SortedHeadLeast(a);
      SortedHeadLeast(b);
      BelowAsymmetric(a[0], b[0]);
      assert a[0] in b && b[0] in a;
      assert a[0] == b[0];
      forall k
        ensures k in a[1..] <==> k in b[1..]
      {
        assert k in a[1..] <==> k in a && k != a[0];
        assert k in b[1..] <==> k in b && k != b[0];
      }
      SortedUnique(a[1..], b[1..]);
      assert a == [a[0]] + a[1..] && b == [b[0]] + b[1..];
    }
  }

  lemma SortedKeysUnique(s: set<string>, r: seq<string>)
    requires Sorted(r) && forall k :: k in r <==> k in s
    ensures r == SortedKeys(s)
  {
    SortedUnique(r, SortedKeys(s));
  }
}

=== FILE: nav_base.dfy ===
/** The navigation base: which observation fields feed the auxiliary encoder,
    in which order they are concatenated, how wide that input is, and the
    recurrent step at the end of the forward pass. The image backbone, the
    encoder layers and the value head are not modelled. */
module NavBase {
  import opened Wrappers
  import opened Seqs
  import opened KeyOrder
  import opened Gru
  import RecurrentBase

  /** The key of the image field, which goes to the backbone, not the encoder. */
  const View: string := "view"

  /** Building the base on an observation space without a view field fails
      when it looks up the view's channel count. */
  datatype NavError = MissingView

  /** The auxiliary field keys in concatenation order: every key but the
      view's, sorted. */
  ghost function AuxKeys(keys: set<string>): (r: seq<string>)
    ensures Sorted(r)
    ensures forall k :: k in r <==> k in keys && k != View
    ensures |r| == |keys - {View}|
  {
    SortedKeys(keys - {View})
  }

  /** Sum of the widths of the listed fields. */
  function SumWidths(space: map<string, nat>, ks: seq<string>): nat
    requires forall k :: k in ks ==> k in space
  {
    if |ks| == 0 then 0 else space[ks[0]] + SumWidths(space, ks[1..])
  }

  lemma {:induction false} SumWidthsAppend(space: map<string, nat>, p: seq<string>, q: seq<string>)
    requires forall k :: k in p + q ==> k in space
    ensures SumWidths(space, p + q) == SumWidths(space, p) + SumWidths(space, q)
    decreases |p|
  {
    if |p| == 0 {
      assert p + q == q;
    } else {
      assert (p + q)[1..] == p[1..] + q;
      SumWidthsAppend(space, p[1..], q);
    }
  }

  /** The listed fields have positive total width exactly when one of them is
      non-empty. */
  lemma {:induction false} SumWidthsPositive(space: map<string, nat>, ks: seq<string>)
    requires forall k :: k in ks ==> k in space
    ensures SumWidths(space, ks) > 0 <==> exists i :: 0 <= i < |ks| && space[ks[i]] > 0
    decreases |ks|
  {
    if |ks| > 0 {
      SumWidthsPositive(space, ks[1..]);
      if SumWidths(space, ks[1..]) > 0 {
        var i :| 0 <= i < |ks[1..]| && space[ks[1..][i]] > 0;
        assert space[ks[i + 1]] > 0;
      }
      if exists i :: 0 <= i < |ks| && space[ks[i]] > 0 {
        var i :| 0 <= i < |ks| && space[ks[i]] > 0;
        if i > 0 {
          assert space[ks[1..][i - 1]] > 0;
        }
      }
    }
  }

  /** Removing one entry from a sorted key list keeps it sorted. */
  lemma SortedWithout(s: seq<string>, i: nat)
    requires Sorted(s) && i < |s|
    ensures Sorted(s[..i] + s[i + 1..])
    ensures forall k :: k in s[..i] + s[i + 1..] <==> k in s && k != s[i]
  {
    var r := s[..i] + s[i + 1..];
    forall p, q | 0 <= p < q < |r|
      ensures Below(r[p], r[q])
    {
      var p', q' := if p < i then p else p + 1, if q < i then q else q + 1;
      assert r[p] == s[p'] && r[q] == s[q'];
    }
    forall j | 0 <= j < |s| && j != i
      ensures s[j] != s[i]
    {
      BelowIrreflexive(s[i]);
    }
    forall k
      ensures k in r <==> k in s && k != s[i]
    {
      if k in s && k != s[i] {
        var j :| 0 <= j < |s| && s[j] == k;
        assert j < i ==> r[j] == k;
        assert j > i ==> r[j - 1] == k;
      }
    }
  }

  /** Taking one field out of a list lowers its summed width by that field's. */
  lemma SumWidthsWithout(space: map<string, nat>, ks: seq<string>, i: nat)
    requires forall k :: k in ks ==> k in space
    requires i < |ks|
    ensures SumWidths(space, ks) == space[ks[i]] + SumWidths(space, ks[..i] + ks[i + 1..])
  {
    var pre, post := ks[..i], ks[i + 1..];
    SplitAt(ks, i);
    SumWidthsAppend(space, pre, [ks[i]] + post);
    assert SumWidths(space, [ks[i]] + post) == space[ks[i]] + SumWidths(space, post);
    SumWidthsAppend(space, pre, post);
  }

  /** The auxiliary keys are the sorted keys with the view's taken out. */
  lemma AuxKeysWithoutView(space: map<string, nat>) returns (i: nat)
    requires View in space
    ensures i < |SortedKeys(space.Keys)| && SortedKeys(space.Keys)[i] == View
    ensures AuxKeys(space.Keys) == SortedKeys(space.Keys)[..i] + SortedKeys(space.Keys)[i + 1..]
  {
    var all := SortedKeys(space.Keys);
    assert View in all;
    i :| 0 <= i < |all| && all[i] == View;
    SortedWithout(all, i);
    SortedKeysUnique(space.Keys - {View}, all[..i] + all[i + 1..]);
  }

  /** The sum over all fields is the view's width plus the sum over the
      auxiliary fields. */
  lemma TotalWidthSplits(space: map<string, nat>)
    requires View in space
    ensures SumWidths(space, SortedKeys(space.Keys)) == space[View] + SumWidths(space, AuxKeys(space.Keys))
  {
    var i := AuxKeysWithoutView(space);
    SumWidthsWithout(space, SortedKeys(space.Keys), i);
  }

  /** `total_size`: the widths of all observation fields summed, less the
      view's. It is the summed width of the auxiliary fields. */
  ghost function AuxWidth(space: map<string, nat>): (r: Result<nat, NavError>)
    ensures r.Ok? <==> View in space
    ensures r.Ok? ==> r.value == SumWidths(space, AuxKeys(space.Keys))
  {
    if View !in space then Err(MissingView)
    else
      TotalWidthSplits(space);
      Ok(SumWidths(space, SortedKeys(space.Keys)) - space[View])
  }

  /** Listed fields that are exactly the non-view fields have positive total
      width exactly when some non-view field is non-empty. */
  lemma NonViewFieldsPositive(space: map<string, nat>, ks: seq<string>)
    requires forall k :: k in ks <==> k in space && k != View
    ensures SumWidths(space, ks) > 0 <==> exists k :: k in space && k != View && space[k] > 0
  {
    SumWidthsPositive(space, ks);
    if exists k :: k in space && k != View && space[k] > 0 {
      var k :| k in space && k != View && space[k] > 0;
      var i :| 0 <= i < |ks| && ks[i] == k;
      assert space[ks[i]] > 0;
    }
    if SumWidths(space, ks) > 0 {
      var i :| 0 <= i < |ks| && space[ks[i]] > 0;
      assert ks[i] in ks;
    }
  }

  lemma AuxWidthPositive(space: map<string, nat>)
    requires View in space
    ensures AuxWidth(space).value > 0 <==> exists k :: k in space && k != View && space[k] > 0
  {
    var ks := AuxKeys(space.Keys);
    assert AuxWidth(space).value == SumWidths(space, ks);
    NonViewFieldsPositive(space, ks);
  }

  /** `other_fc` is built exactly when some auxiliary field has positive width. */
  ghost function HasAuxEncoder(space: map<string, nat>): (r: bool)
    requires View in space
    ensures r <==> exists k :: k in space && k != View && space[k] > 0
  {
    AuxWidthPositive(space);
    AuxWidth(space).value > 0
  }

  /** Concatenation of the listed fields, in list order. */
  function Concat<F>(inputs: map<string, seq<F>>, ks: seq<string>): seq<F>
    requires forall k :: k in ks ==> k in inputs
  {
    if |ks| == 0 then [] else inputs[ks[0]] + Concat(inputs, ks[1..])
  }

  lemma {:induction false} ConcatAppend<F>(inputs: map<string, seq<F>>, p: seq<string>, q: seq<string>)
    requires forall k :: k in p + q ==> k in inputs
    ensures Concat(inputs, p + q) == Concat(inputs, p) + Concat(inputs, q)
    decreases |p|
  {
    if |p| == 0 {
      assert p + q == q;
    } else {
      assert (p + q)[1..] == p[1..] + q;
      ConcatAppend(inputs, p[1..], q);
    }
  }

  /** The auxiliary input of one observation: its non-view fields concatenated
      in sorted key order. */
  ghost function ConcatAux<F>(inputs: map<string, seq<F>>): (r: seq<F>)
    ensures |r| == SumWidths(Widths(inputs), AuxKeys(inputs.Keys))
  {
    ConcatLength(Widths(inputs), inputs, AuxKeys(inputs.Keys));
    Concat(inputs, AuxKeys(inputs.Keys))
  }

  /** The width of every field of an observation. */
  function Widths<F>(inputs: map<string, seq<F>>): (w: map<string, nat>)
    ensures w.Keys == inputs.Keys
    ensures forall k :: k in inputs ==> w[k] == |inputs[k]|
  {
    map k | k in inputs :: |inputs[k]|
  }

  /** In the concatenation of a key list, the i-th field sits right after the
      fields listed before it. */
  lemma ConcatLayout<F>(inputs: map<string, seq<F>>, ks: seq<string>, i: nat)
    requires forall k :: k in ks ==> k in inputs
    requires i < |ks|
    ensures var off := |Concat(inputs, ks[..i])|;
            off + |inputs[ks[i]]| <= |Concat(inputs, ks)|
            && Concat(inputs, ks)[off .. off + |inputs[ks[i]]|] == inputs[ks[i]]
  {
    var pre, rest := ks[..i], [ks[i]] + ks[i + 1..];
    SplitAt(ks, i);
    ConcatAppend(inputs, pre, rest);
    assert Concat(inputs, rest) == inputs[ks[i]] + Concat(inputs, ks[i + 1..]);
    SliceOfConcat(Concat(inputs, pre), inputs[ks[i]], Concat(inputs, ks[i + 1..]));
  }

  /** In the auxiliary input, the i-th field in sorted key order sits right
      after the fields of the keys sorted before it. */
  lemma ConcatAuxLayout<F>(inputs: map<string, seq<F>>, i: nat)
    requires i < |AuxKeys(inputs.Keys)|
    ensures var ks := AuxKeys(inputs.Keys);
            var off := |Concat(inputs, ks[..i])|;
            off + |inputs[ks[i]]| <= |ConcatAux(inputs)|
            && ConcatAux(inputs)[off .. off + |inputs[ks[i]]|] == inputs[ks[i]]
  {
    ConcatLayout(inputs, AuxKeys(inputs.Keys), i);
  }

  lemma {:induction false} ConcatLength<F>(space: map<string, nat>, inputs: map<string, seq<F>>, ks: seq<string>)
    requires forall k :: k in ks ==> k in inputs && k in space && |inputs[k]| == space[k]
    ensures |Concat(inputs, ks)| == SumWidths(space, ks)
    decreases |ks|
  {
    if |ks| > 0 {
      ConcatLength(space, inputs, ks[1..]);
    }
  }

  /** An observation whose fields have the widths the space declares yields an
      auxiliary input exactly as wide as the encoder was built for. */
  lemma ConcatAuxMatchesAuxWidth<F>(space: map<string, nat>, inputs: map<string, seq<F>>)
    requires View in space && inputs.Keys == space.Keys
    requires forall k :: k in inputs ==> |inputs[k]| == space[k]
    ensures AuxWidth(space) == Ok(|ConcatAux(inputs)|)
  {
    ConcatLength(space, inputs, AuxKeys(inputs.Keys));
  }

  /** The last step of `forward`: with the recurrent flag set the combined
      features go through `_forward_gru`; otherwise features and hidden state
      pass through untouched. */
  function Forward<F, H>(cfg: RecurrentBase.Config, c: Cell<F, H, F>, x: seq<F>, hxs: seq<H>, masks: seq<bool>)
    : (r: Result<(seq<F>, seq<H>), RecurrentBase.GruError>)
    ensures !cfg.recurrent ==> r == Ok((x, hxs))
    ensures cfg.recurrent ==> r == RecurrentBase.ForwardGru(c, x, hxs, masks)
    ensures r.Ok? ==> |r.value.0| == |x| && |r.value.1| == |hxs|
    ensures cfg.recurrent && |hxs| > 0 && r.Ok?
            ==> |masks| == |x| && |x| % |hxs| == 0 && r.value == RecurrentBase.StepByStep(c, x, hxs, masks)
  {
    if !cfg.recurrent then Ok((x, hxs))
    else
      var r := RecurrentBase.ForwardGru(c, x, hxs, masks);
      if |hxs| > 0 && r.Ok? then
        RecurrentBase.ForwardGruMatchesStepByStep(c, x, hxs, masks);
        r
      else r
  }
}

=== FILE: nn_base.dfy ===
/** The recurrent base network: its size properties and `_forward_gru`, the
    entry point that picks single-step or multi-step mode from the batch shape
    and fails on a batch it cannot reshape. */
module RecurrentBase {
  import opened Wrappers
  import opened Seqs
  import opened Gru
  import opened Segmentation

  datatype Config = Config(recurrent: bool, hiddenSize: nat)

  /** Width of the per-instance state the caller stores between calls: the
      GRU's hidden width when the base is recurrent, a one-wide placeholder
      otherwise. `output_size` reports the configured hidden width, which is
      `hiddenSize` itself. */
  function RecurrentHiddenStateSize(cfg: Config): (r: nat)
    ensures cfg.recurrent ==> r == cfg.hiddenSize
    ensures !cfg.recurrent ==> r == 1
  {
    if cfg.recurrent then cfg.hiddenSize else 1
  }

  /** Ways the reshaping in `_forward_gru` fails. */
  datatype GruError =
    | DivisionByZero   // no hidden states but rows to process: rows / 0
    | ShapeMismatch    // rows not a multiple of N, or masks not one per row
    | EmptySequence    // zero rows against N > 0 hidden states: there is no step 0

  /** The batch shapes `_forward_gru` processes: exactly N rows (single-step
      mode) or a positive multiple of N, with one mask per row. */
  predicate AcceptedShape(rows: nat, n: nat, maskCount: nat) {
    maskCount == rows && (rows == n || (n > 0 && rows > 0 && rows % n == 0))
  }

  /** Euclidean division facts the reshape needs. */
  lemma DivisionFacts(rows: nat, n: nat)
    requires n > 0
    ensures rows % n == 0 <==> (rows / n) * n == rows
    ensures rows == n ==> rows / n == 1
    ensures rows > 0 && rows % n == 0 ==> rows / n >= 1
    ensures rows == 0 ==> rows / n == 0
  {
  }

  /** The reference semantics on the flat layout: cut the T*N rows into T
      steps and apply single-step mode at each step in turn. */
  function StepByStep<X, H, Y>(c: Cell<X, H, Y>, x: seq<X>, hxs: seq<H>, masks: seq<bool>): (r: (seq<Y>, seq<H>))
    requires |hxs| > 0 && |masks| == |x| && |x| % |hxs| == 0
    ensures |r.0| == |x| && |r.1| == |hxs|
  {
    var n := |hxs|;
    var t := |x| / n;
    DivisionFacts(|x|, n);
    var (ys, h) := Sequential(c, Unflatten(x, t, n), Unflatten(masks, t, n), hxs);
    FlattenLength(ys, n);
    (Flatten(ys), h)
  }

  /** `_forward_gru(x, hxs, masks)`: with as many rows as hidden states, one
      masked step; otherwise reshape to T x N, cut at the resetting steps and
      run the layer over each run. */
  function ForwardGru<X, H, Y>(c: Cell<X, H, Y>, x: seq<X>, hxs: seq<H>, masks: seq<bool>): (r: Result<(seq<Y>, seq<H>), GruError>)
    ensures r.Ok? <==> AcceptedShape(|x|, |hxs|, |masks|)
    ensures r.Ok? ==> |r.value.0| == |x| && |r.value.1| == |hxs|
    ensures |x| == |hxs| && |masks| == |x| ==> r == Ok(SingleStep(c, x, hxs, masks))
    ensures |x| != |hxs| && |hxs| == 0 ==> r == Err(DivisionByZero)
    ensures |hxs| > 0 && |x| % |hxs| != 0 ==> r == Err(ShapeMismatch)
    ensures |masks| != |x| && (|hxs| > 0 || |x| == |hxs|) ==> r == Err(ShapeMismatch)
    ensures |x| == 0 && |masks| == 0 && |hxs| > 0 ==> r == Err(EmptySequence)
  {
    var n := |hxs|;
    if |x| == n then
      if |masks| != n then Err(ShapeMismatch) else Ok(SingleStep(c, x, hxs, masks))
    else if n == 0 then Err(DivisionByZero)
    else
      DivisionFacts(|x|, n);
      var t := |x| / n;
      if t * n != |x| || |masks| != |x| then Err(ShapeMismatch)
      else if t == 0 then Err(EmptySequence)
      else
        var (ys, h) := MultiStep(c, Unflatten(x, t, n), Unflatten(masks, t, n), hxs);
        FlattenLength(ys, n);
        Ok((Flatten(ys), h))
  }

  /** In either mode, a successful call returns exactly what single-step mode
      applied at t = 0 .. T-1 returns. */
  lemma ForwardGruMatchesStepByStep<X, H, Y>(c: Cell<X, H, Y>, x: seq<X>, hxs: seq<H>, masks: seq<bool>)
    requires ForwardGru(c, x, hxs, masks).Ok? && |hxs| > 0
    ensures |masks| == |x| && |x| % |hxs| == 0
    ensures ForwardGru(c, x, hxs, masks).value == StepByStep(c, x, hxs, masks)
  {
    var n := |hxs|;
    var t := |x| / n;
    if |x| == n {
      assert t == 1;
      var y := SingleStep(c, x, hxs, masks);
      assert x[..n] == x && masks[..n] == masks;
      assert Unflatten(x[n..], 0, n) == [] && Unflatten(masks[n..], 0, n) == [];
      assert Unflatten(x, 1, n) == [x];
      assert Unflatten(masks, 1, n) == [masks];
      assert [x][1..] == [] && [masks][1..] == [];
      assert Sequential(c, [], [], y.1) == ([], y.1);
      assert Sequential(c, [x], [masks], hxs) == ([y.0] + [], y.1);
      assert [y.0] + [] == [y.0];
      assert Flatten([y.0]) == y.0;
    } else {
      MultiStepMatchesSequential(c, Unflatten(x, t, n), Unflatten(masks, t, n), hxs);
    }
  }
}

=== FILE: segmentation.dfy ===
/** Multi-step mode of the recurrent layer: the T steps of a batch are cut at
    every step where some instance resets, each run between two cuts is masked
    once at its first step and then handed to the layer whole, and the run
    outputs are concatenated in time order. */
module Segmentation {
  import opened Seqs
  import opened Gru

  /** The steps u, t <= u < T, at which some instance's mask is 0.0, in
      increasing order. */
  function ResetSteps(masks: seq<seq<bool>>, t: nat): (r: seq<nat>)
    ensures StrictlyIncreasing(r)
    ensures forall k :: 0 <= k < |r| ==> t <= r[k] < |masks| && AnyReset(masks[r[k]])
    ensures forall u :: t <= u < |masks| && AnyReset(masks[u]) ==> u in r
    decreases |masks| - t
  {
    if t >= |masks| then []
    else if AnyReset(masks[t]) then [t] + ResetSteps(masks, t + 1)
    else ResetSteps(masks, t + 1)
  }

  /** The split points of a T-step batch: 0, every step 1 <= t < T at which
      some instance resets, then T. Step 0 is a boundary whatever its masks. */
  function SplitPoints(masks: seq<seq<bool>>): (r: seq<nat>)
    requires |masks| >= 1
    ensures |r| >= 2 && r[0] == 0 && r[|r| - 1] == |masks|
    ensures StrictlyIncreasing(r)
    ensures forall k :: 0 <= k < |r| ==> r[k] <= |masks|
    ensures forall u :: 1 <= u < |masks| ==> (u in r <==> AnyReset(masks[u]))
  {
    [0] + ResetSteps(masks, 1) + [|masks|]
  }

  /** The runs [start, end) between consecutive split points. */
  function Runs(splits: seq<nat>): (r: seq<(nat, nat)>)
    requires |splits| >= 1
    ensures |r| == |splits| - 1
    ensures |splits| >= 2 ==> r[0].0 == splits[0] && r[|r| - 1].1 == splits[|splits| - 1]
    ensures forall i :: 0 <= i < |r| - 1 ==> r[i].1 == r[i + 1].0
    ensures forall i :: 0 <= i < |r| ==> r[i].0 == splits[i] && r[i].1 == splits[i + 1]
  {
    seq(|splits| - 1, i requires 0 <= i < |splits| - 1 => (splits[i], splits[i + 1]))
  }

  /** The number of steps the runs hold together. */
  function TotalLength(runs: seq<(nat, nat)>): int
  {
    if |runs| == 0 then 0 else (runs[0].1 - runs[0].0) + TotalLength(runs[1..])
  }

  /** No step strictly inside a run resets any instance. */
  predicate QuietInside(splits: seq<nat>, masks: seq<seq<bool>>)
    requires forall k :: 0 <= k < |splits| ==> splits[k] <= |masks|
  {
    forall k, u :: 0 <= k < |splits| - 1 && splits[k] < u < splits[k + 1] ==> AllContinue(masks[u])
  }

  /** The loop over runs: reset the state once with the mask of the run's first
      step, run the layer over the whole run, append its outputs. */
  function Segments<X, H, Y>(c: Cell<X, H, Y>, rows: seq<seq<X>>, masks: seq<seq<bool>>,
                             splits: seq<nat>, h: seq<H>): (r: (seq<seq<Y>>, seq<H>))
    requires WellShaped(rows, masks, |h|)
    requires |splits| >= 1 && StrictlyIncreasing(splits) && splits[|splits| - 1] <= |rows|
    ensures |r.1| == |h| && Rectangular(r.0, |h|)
    ensures |r.0| == splits[|splits| - 1] - splits[0]
    decreases |splits|
  {
    if |splits| == 1 then ([], h)
    else
      var start, end := splits[0], splits[1];
      var (ys, h1) := Run(c, rows[start..end], Reset(h, masks[start], c.zero));
      var (rest, h2) := Segments(c, rows, masks, splits[1..], h1);
      (ys + rest, h2)
  }

  /** Multi-step mode on a T x N grid, T >= 1. */
  function MultiStep<X, H, Y>(c: Cell<X, H, Y>, rows: seq<seq<X>>, masks: seq<seq<bool>>, h: seq<H>): (r: (seq<seq<Y>>, seq<H>))
    requires WellShaped(rows, masks, |h|) && |rows| >= 1
    ensures |r.0| == |rows| && |r.1| == |h|
    ensures Rectangular(r.0, |h|)
  {
    Segments(c, rows, masks, SplitPoints(masks), h)
  }

  /** The run a step falls in: the index i with splits[i] <= u < splits[i + 1]. */
  lemma {:induction false} CoveringRun(splits: seq<nat>, u: nat) returns (i: nat)
    requires |splits| >= 2 && StrictlyIncreasing(splits)
    requires splits[0] <= u < splits[|splits| - 1]
    ensures i < |splits| - 1 && splits[i] <= u < splits[i + 1]
    decreases |splits|
  {
    if u < splits[1] {
      i := 0;
    } else {
      var j := CoveringRun(splits[1..], u);
      i := j + 1;
    }
  }

  /** Contiguous runs hold as many steps as lie between the first start and the
      last end. */
  lemma {:induction false} TotalLengthTelescopes(splits: seq<nat>)
    requires |splits| >= 1 && StrictlyIncreasing(splits)
    ensures TotalLength(Runs(splits)) == splits[|splits| - 1] - splits[0]
    decreases |splits|
  {
    if |splits| > 1 {
      TotalLengthTelescopes(splits[1..]);
      assert Runs(splits)[1..] == Runs(splits[1..]);
    }
  }

  /** Step u lies in the run [start, end). */
  predicate InRun(run: (nat, nat), u: nat) {
    run.0 <= u < run.1
  }

  /** Some run holds step u. */
  predicate Covered(runs: seq<(nat, nat)>, u: nat) {
    exists i :: 0 <= i < |runs| && InRun(runs[i], u)
  }

  /** The runs are non-empty, contiguous and in order, start at 0 and end at T. */
  lemma RunsContiguous(masks: seq<seq<bool>>)
    requires |masks| >= 1
    ensures var runs := Runs(SplitPoints(masks));
      && |runs| >= 1
      && runs[0].0 == 0 && runs[|runs| - 1].1 == |masks|
      && (forall i :: 0 <= i < |runs| ==> runs[i].0 < runs[i].1)
      && (forall i :: 0 <= i < |runs| - 1 ==> runs[i].1 == runs[i + 1].0)
      && (forall i, j :: 0 <= i < j < |runs| ==> runs[i].1 <= runs[j].0)
  {
  }

  /** Every step 0 <= u < T lies in exactly one run, and the runs hold T steps
      in all, so the concatenated outputs have T rows. */
  lemma RunsCoverOnce(masks: seq<seq<bool>>)
    requires |masks| >= 1
    ensures var runs := Runs(SplitPoints(masks));
      && (forall u :: 0 <= u < |masks| ==> Covered(runs, u))
      && (forall i, j, u :: 0 <= i < |runs| && 0 <= j < |runs| && InRun(runs[i], u) && InRun(runs[j], u) ==> i == j)
      && TotalLength(runs) == |masks|
  {
    var splits := SplitPoints(masks);
    var runs := Runs(splits);
    forall u | 0 <= u < |masks|
      ensures Covered(runs, u)
    {
      var i := CoveringRun(splits, u);
      assert InRun(runs[i], u);
    }
    RunsContiguous(masks);
    TotalLengthTelescopes(splits);
  }

  /** A strictly increasing list spans at least one unit per gap. */
  lemma {:induction false} SpreadAtLeastGaps(s: seq<nat>)
    requires |s| >= 1 && StrictlyIncreasing(s)
    ensures s[|s| - 1] - s[0] >= |s| - 1
    decreases |s|
  {
    if |s| > 1 {
      SpreadAtLeastGaps(s[1..]);
    }
  }

  /** One gap of two or more adds a unit to that span. */
  lemma {:induction false} WideGapSpread(s: seq<nat>, i: nat)
    requires StrictlyIncreasing(s) && i + 1 < |s| && s[i + 1] - s[i] >= 2
    ensures s[|s| - 1] - s[0] >= |s|
    decreases |s|
  {
    if i == 0 {
      SpreadAtLeastGaps(s[1..]);
    } else {
      WideGapSpread(s[1..], i - 1);
    }
  }

  /** A value strictly between two consecutive entries of a strictly
      increasing list is not in the list. */
  lemma BetweenNotIn(s: seq<nat>, k: nat, u: nat)
    requires StrictlyIncreasing(s) && k + 1 < |s| && s[k] < u < s[k + 1]
    ensures u !in s
  {
    forall m | 0 <= m < |s|
      ensures s[m] != u
    {
      assert m <= k ==> s[m] <= s[k];
      assert m > k ==> s[k + 1] <= s[m];
    }
  }

  /** Within a run every step after the first has all masks 1.0: resets happen
      only at run starts. */
  lemma RunsAreQuietInside(masks: seq<seq<bool>>)
    requires |masks| >= 1
    ensures QuietInside(SplitPoints(masks), masks)
  {
    var splits := SplitPoints(masks);
    forall k, u | 0 <= k < |splits| - 1 && splits[k] < u < splits[k + 1]
      ensures AllContinue(masks[u])
    {
      BetweenNotIn(splits, k, u);
      assert !AnyReset(masks[u]);
    }
  }

  lemma {:induction false} ResetStepsNone(masks: seq<seq<bool>>, t: nat)
    requires forall u :: t <= u < |masks| ==> AllContinue(masks[u])
    ensures ResetSteps(masks, t) == []
    decreases |masks| - t
  {
    if t < |masks| {
      assert !AnyReset(masks[t]);
      ResetStepsNone(masks, t + 1);
    }
  }

  /** If no instance resets after step 0, the batch is one run [0, T). */
  lemma NoResetsSingleRun(masks: seq<seq<bool>>)
    requires |masks| >= 1
    requires forall u :: 1 <= u < |masks| ==> AllContinue(masks[u])
    ensures SplitPoints(masks) == [0, |masks|]
    ensures Runs(SplitPoints(masks)) == [(0, |masks|)]
  {
    ResetStepsNone(masks, 1);
  }

  lemma {:induction false} ResetStepsEverywhere(masks: seq<seq<bool>>, t: nat)
    requires 1 <= t <= |masks|
    requires forall u :: t <= u < |masks| ==> AnyReset(masks[u])
    ensures |ResetSteps(masks, t)| == |masks| - t
    ensures forall k :: 0 <= k < |masks| - t ==> ResetSteps(masks, t)[k] == t + k
    decreases |masks| - t
  {
    if t < |masks| {
      ResetStepsEverywhere(masks, t + 1);
    }
  }

  /** If some instance resets at every step 1 .. T-1, the batch falls into T
      runs of length one: step-by-step execution. */
  lemma EveryStepResetsUnitRuns(masks: seq<seq<bool>>)
    requires |masks| >= 1
    requires forall u :: 1 <= u < |masks| ==> AnyReset(masks[u])
    ensures |SplitPoints(masks)| == |masks| + 1
    ensures forall k :: 0 <= k <= |masks| ==> SplitPoints(masks)[k] == k
    ensures |Runs(SplitPoints(masks))| == |masks|
    ensures forall i :: 0 <= i < |masks| ==> Runs(SplitPoints(masks))[i] == (i, i + 1)
  {
    ResetStepsEverywhere(masks, 1);
  }

  /** There are as many runs as steps exactly when every step after the first
      resets some instance; otherwise some run holds two or more steps. */
  lemma RunCountIsStepCount(masks: seq<seq<bool>>)
    requires |masks| >= 1
    ensures |Runs(SplitPoints(masks))| == |masks|
            <==> forall u :: 1 <= u < |masks| ==> AnyReset(masks[u])
    ensures |Runs(SplitPoints(masks))| <= |masks|
  {
    var splits := SplitPoints(masks);
    SpreadAtLeastGaps(splits);
    if forall u :: 1 <= u < |masks| ==> AnyReset(masks[u]) {
      EveryStepResetsUnitRuns(masks);
    } else {
      var u :| 1 <= u < |masks| && !AnyReset(masks[u]);
      var i := CoveringRun(splits, u);
      assert u !in splits;
      assert splits[i] != u;
      WideGapSpread(splits, i);
    }
  }

  /** Dropping the first split point keeps the remaining runs quiet. */
  lemma QuietInsideTail(splits: seq<nat>, masks: seq<seq<bool>>)
    requires |splits| >= 1 && forall k :: 0 <= k < |splits| ==> splits[k] <= |masks|
    requires QuietInside(splits, masks)
    ensures QuietInside(splits[1..], masks)
  {
    forall k, u | 0 <= k < |splits[1..]| - 1 && splits[1..][k] < u < splits[1..][k + 1]
      ensures AllContinue(masks[u])
    {
      assert splits[1..][k] == splits[k + 1] && splits[1..][k + 1] == splits[k + 2];
    }
  }

  /** The first run, taken as a grid of its own, resets only at its first step. */
  lemma FirstRunQuiet(splits: seq<nat>, masks: seq<seq<bool>>)
    requires |splits| >= 2 && splits[0] <= splits[1] <= |masks|
    requires forall k :: 0 <= k < |splits| ==> splits[k] <= |masks|
    requires QuietInside(splits, masks)
    ensures forall t :: 1 <= t < |masks[splits[0]..splits[1]]| ==> AllContinue(masks[splits[0]..splits[1]][t])
  {
    var ma := masks[splits[0]..splits[1]];
    forall t | 1 <= t < |ma|
      ensures AllContinue(ma[t])
    {
      assert ma[t] == masks[splits[0] + t];
    }
  }

  /** Segments unfolds into its first run followed by the segments after it. */
  lemma SegmentsStep<X, H, Y>(c: Cell<X, H, Y>, rows: seq<seq<X>>, masks: seq<seq<bool>>, splits: seq<nat>, h: seq<H>)
    requires WellShaped(rows, masks, |h|)
    requires |splits| >= 2 && StrictlyIncreasing(splits) && splits[|splits| - 1] <= |rows|
    ensures Rectangular(rows[splits[0]..splits[1]], |h|)
    ensures var first := Run(c, rows[splits[0]..splits[1]], Reset(h, masks[splits[0]], c.zero));
            var rest := Segments(c, rows, masks, splits[1..], first.1);
            Segments(c, rows, masks, splits, h) == (first.0 + rest.0, rest.1)
  {
  }

  /** Segmented execution over any split list with quiet runs equals masking
      before every step over the steps the runs cover. */
  lemma {:induction false} SegmentsMatchSequential<X, H, Y>(c: Cell<X, H, Y>, rows: seq<seq<X>>, masks: seq<seq<bool>>,
                                                           splits: seq<nat>, h: seq<H>)
    requires WellShaped(rows, masks, |h|)
    requires |splits| >= 1 && StrictlyIncreasing(splits) && splits[|splits| - 1] <= |rows|
    requires QuietInside(splits, masks)
    ensures Segments(c, rows, masks, splits, h)
         == Sequential(c, rows[splits[0]..splits[|splits| - 1]], masks[splits[0]..splits[|splits| - 1]], h)
    decreases |splits|
  {
    var last := splits[|splits| - 1];
    if |splits| == 1 {
      assert rows[splits[0]..last] == [];
    } else {
      var start, end := splits[0], splits[1];
      var a, ma := rows[start..end], masks[start..end];
      var b, mb := rows[end..last], masks[end..last];
      FirstRunQuiet(splits, masks);
      RunFromReset(c, a, ma, h);
      var h1 := Run(c, a, Reset(h, masks[start], c.zero)).1;
      QuietInsideTail(splits, masks);
      SegmentsMatchSequential(c, rows, masks, splits[1..], h1);
      SegmentsStep(c, rows, masks, splits, h);
      SequentialAppend(c, a, ma, b, mb, h);
      SliceSplit(rows, start, end, last);
      SliceSplit(masks, start, end, last);
    }
  }

  /** The central claim: multi-step mode produces the same outputs and final
      hidden state as single-step mode applied at t = 0, 1, ..., T-1. */
  lemma MultiStepMatchesSequential<X, H, Y>(c: Cell<X, H, Y>, rows: seq<seq<X>>, masks: seq<seq<bool>>, h: seq<H>)
    requires WellShaped(rows, masks, |h|) && |rows| >= 1
    ensures MultiStep(c, rows, masks, h) == Sequential(c, rows, masks, h)
  {
    RunsAreQuietInside(masks);
    SegmentsMatchSequential(c, rows, masks, SplitPoints(masks), h);
    assert rows[0..|rows|] == rows;
    assert masks[0..|masks|] == masks;
  }

  /** Two instances over three steps, where instance 1 resets at step 1: the
      cut falls at step 1, giving runs [0, 1) and [1, 3). */
  lemma ResetAtStepOneExample()
    ensures SplitPoints([[true, true], [true, false], [true, true]]) == [0, 1, 3]
    ensures Runs(SplitPoints([[true, true], [true, false], [true, true]])) == [(0, 1), (1, 3)]
  {
    var masks := [[true, true], [true, false], [true, true]];
    assert !masks[1][1];
    assert !AnyReset(masks[2]);
    assert ResetSteps(masks, 3) == [];
    assert ResetSteps(masks, 2) == [];
    assert ResetSteps(masks, 1) == [1];
  }
}

=== FILE: sequences.dfy ===
/** Sequence shapes: the (T, N) grid view of a flat batch of T*N rows, and the
    strictly increasing index lists used as split points. */
module Seqs {

  /** Every row of `rows` has exactly `n` entries (a T x n tensor). */
  predicate Rectangular<T>(rows: seq<seq<T>>, n: nat) {
    forall t :: 0 <= t < |rows| ==> |rows[t]| == n
  }

  predicate StrictlyIncreasing(s: seq<nat>) {
    forall i, j :: 0 <= i < j < |s| ==> s[i] < s[j]
  }

  /** Row-major flattening, `view(T * N, -1)`. */
  function Flatten<T>(rows: seq<seq<T>>): seq<T>
  {
    if |rows| == 0 then [] else rows[0] + Flatten(rows[1..])
  }

  /** `view(T, n, -1)` of a flat sequence of T*n elements: row t holds the
      elements t*n .. t*n+n-1, and flattening gives back the input. */
  function Unflatten<T>(x: seq<T>, t: nat, n: nat): (rows: seq<seq<T>>)
    requires |x| == t * n
    ensures |rows| == t
    ensures Rectangular(rows, n)
    ensures Flatten(rows) == x
    decreases t
  {
    if t == 0 then []
    else
      assert t * n == (t - 1) * n + n;
      var rest := Unflatten(x[n..], t - 1, n);
      assert ([x[..n]] + rest)[1..] == rest;
      [x[..n]] + rest
  }

  lemma {:induction false} FlattenLength<T>(rows: seq<seq<T>>, n: nat)
    requires Rectangular(rows, n)
    ensures |Flatten(rows)| == |rows| * n
  {
    if |rows| > 0 {
      FlattenLength(rows[1..], n);
    }
  }

  /** Cutting a flattened grid back into rows of the same width recovers the grid. */
  lemma {:induction false} UnflattenFlatten<T>(rows: seq<seq<T>>, n: nat)
    requires Rectangular(rows, n)
    ensures |Flatten(rows)| == |rows| * n
    ensures Unflatten(Flatten(rows), |rows|, n) == rows
  {
    FlattenLength(rows, n);
    if |rows| > 0 {
      UnflattenFlatten(rows[1..], n);
      var f := Flatten(rows);
      assert f == rows[0] + Flatten(rows[1..]);
      assert f[..n] == rows[0];
      assert f[n..] == Flatten(rows[1..]);
      assert rows == [rows[0]] + rows[1..];
    }
  }

  /** A sequence is its prefix, the element at i, and its suffix. */
  lemma SplitAt<T>(s: seq<T>, i: nat)
    requires i < |s|
    ensures s == s[..i] + ([s[i]] + s[i + 1..])
    ensures ([s[i]] + s[i + 1..])[1..] == s[i + 1..]
  {
  }

  lemma SliceOfConcat<T>(a: seq<T>, b: seq<T>, c: seq<T>)
    ensures |a| + |b| <= |a + (b + c)|
    ensures (a + (b + c))[|a| .. |a| + |b|] == b
  {
  }

  lemma TakeDrop<T>(s: seq<T>, t: nat)
    requires t <= |s|
    ensures s[..t] + s[t..] == s
  {
  }

  /** A slice is the two slices either side of an inner cut. */
  lemma SliceSplit<T>(s: seq<T>, i: nat, j: nat, k: nat)
    requires i <= j <= k <= |s|
    ensures s[i..k] == s[i..j] + s[j..k]
  {
  }

  lemma DropPrefix<T>(p: seq<T>, q: seq<T>)
    ensures (p + q)[|p|..] == q
  {
  }
}

=== FILE: wrappers.dfy ===
/** The success-or-error result used wherever the modelled code can raise. */
module Wrappers {

  datatype Result<+T, +E> = Ok(value: T) | Err(error: E)
}
